=== FILE: README.md ===
# jahreskalender — a Dafny model of the year planner

`jahreskalender.py` draws a one-page year planner as a PDF. The page is
A4 in landscape. Each of the twelve months is a column and each day of
the month is a row. Every day cell is laid out the same way:

- weekend cells get a light grey background;
- every cell has a border;
- the label is the abbreviated weekday name followed by the day number,
  set in bold on weekends;
- on Mondays the ISO week number is printed at the cell's right.

This project models the planner's core:

- `supported_languages`;
- `safe_set_locale`, which searches a per-language list of locale names
  and takes the first one the platform accepts;
- `create_year_plan`, covering input resolution (default year, language
  coercion, default file name), the page geometry, the day grid built from
  `calendar.Calendar(firstweekday=0).itermonthdates`, the filter on
  line 85, `date.isocalendar()[1]`, `date.weekday()`, and the drawing
  commands of every cell.

The Python standard-library calendar arithmetic that the planner relies
on is modelled too, because it decides the planner's results and error
conditions. That covers Python's proleptic ordinal (0001-01-01 is day 1,
a Monday), the month padding of `itermonthdates`, the exception that
`datetime.date` raises outside years 1..9999, and `isocalendar`'s
algorithm. Each is proved against an independent reference: a closed
form, the month's own days, and the ISO 8601 "week containing the
Thursday" rule.

Modules:

- `Wrappers`: `Option` and `Result`.
- `Decimal`: `str(int)` and a decimal parser, for the title, the file
  name and the week labels.
- `Gregorian`: leap years, month lengths, ordinals and weekdays.
- `IsoWeek`: Python's `isocalendar` and the Thursday rule.
- `MonthIteration`: `itermonthdates` with Monday as the first weekday,
  and the month filter.
- `Layout`: page geometry, on exact reals.
- `Locales`: `supported_languages`, `safe_set_locale`, input resolution
  and the default file name.
- `YearPlan`: day cells, per-cell drawing operations and
  `create_year_plan`.

Two consequences of the code that a reader might not expect:

- Week numbers are `isocalendar()`'s, so weeks follow ISO 8601's
  Thursday rule rather than the calendar year. 2026-01-01 is a Thursday
  (`IsoWeek.Example2026Thursday`), so Monday 2025-12-29 is already in
  week 1 of 2026 (`IsoWeek.Example2026Week1`), and Monday 2026-01-05 is
  in ISO week 2 (`IsoWeek.Example2026Week2`).
- `create_year_plan` raises for every year outside 1..9998. The exception
  is `ValueError`, or `OverflowError` once the year no longer fits a C
  `int`; the command line's `type=int` puts no bound on the year.
  Since Python 3.7, `itermonthdates` builds a `datetime.date` for every
  padding day around a month, and the model assumes that behaviour.
  9999-12-31 is a Friday, so the padding of December 9999 runs into
  10000-01-01 and 10000-01-02, which `datetime.date` cannot represent.
  In any year outside 1..9999 even the month's own days are out of range.
  The model expresses the exception as a `Result` failure
  (`YearPlan.CreateYearPlan`).

## Model

| member | source | states |
|---|---|---|
| Locales.CoerceLanguage | jahreskalender.py:46-47 | The result is always one of the five supported codes: a supported selector is kept unchanged, and any other is replaced by `en`. |
| Locales.CoerceIdempotent | jahreskalender.py:46-47 | Coercing an already coerced language changes nothing. |
| Locales.LocaleVariants | jahreskalender.py:17-29 | The variant list is empty exactly for selectors outside the supported five ("try system default only"). |
| Locales.FirstAccepted | jahreskalender.py:31-38 | The search yields nothing exactly when the platform rejects every variant. Otherwise it yields the first accepted variant: it is accepted and every earlier one was rejected. |
| Locales.SafeSetLocale | jahreskalender.py:14-38 | A returned locale name is one of the language's variants and was accepted by `setlocale`. |
| Locales.SafeSetLocaleFirstMatch | jahreskalender.py:31-36 | If variant k is accepted and all variants before it are rejected, the function returns exactly variant k. |
| Locales.SafeSetLocaleNone | jahreskalender.py:27-38 | `None` comes back exactly when no variant is accepted, and always for an unsupported language. |
| Locales.CLocaleFallback | jahreskalender.py:18-20 | For `en` and `de`, a platform that accepts the "C" locale always gets some locale set. |
| Locales.DefaultFilename | jahreskalender.py:53-54 | The default name `year_plan_{year}_{language}.pdf`. Its contract is in `Locales.FilenameParts` and `Locales.DefaultFilenameInjective`: the name gives back its year and language. |
| Locales.TwoLetterCodes | jahreskalender.py:11 | Every supported selector is a two-letter code. |
| Locales.FilenameParts | jahreskalender.py:53-54 | `year_plan_{year}_{language}.pdf` with equally long language codes determines both the year and the language. |
| Locales.DefaultFilenameInjective | jahreskalender.py:53-54 | Two runs whose (coerced) languages or years differ never default to the same file name. |
| Locales.Resolve | jahreskalender.py:41-54 | The year is the given one, or the clock's year plus one when none is given. The language is coerced. The locale is `safe_set_locale` of the coerced language. The warning of line 51 is issued exactly when no locale was set, which is exactly when the platform rejects every variant of that language. A given file name is kept, and otherwise the default name is built from the resolved year and language. |
| Locales.UnsupportedActsAsEnglish | jahreskalender.py:46-54 | An unsupported selector resolves exactly as `en` does: same locale search, same warning, same file name. |
| Decimal.NatToString | jahreskalender.py:66 | `str(n)` of a natural number is a non-empty string of digits without a leading zero (other than "0" itself). |
| Decimal.IntToString | jahreskalender.py:54 | `str(n)` is non-empty and starts with '-' exactly for negative numbers. |
| Decimal.NatRoundTrip | jahreskalender.py:66 | The digits of `str(n)` denote n. |
| Decimal.RoundTrip | jahreskalender.py:66 | Parsing `str(n)` gives back n, for every integer. |
| Decimal.IntToStringInjective | jahreskalender.py:54 | Distinct integers print differently, so the title and the file name identify the year. |
| Gregorian.DaysInYear | jahreskalender.py:82 | A year has 366 days exactly when it is a Gregorian leap year, and 365 otherwise. |
| Gregorian.DaysInMonth | jahreskalender.py:82 | Months have 28..31 days: February has 29 exactly in leap years, and April, June, September and November have 30. |
| Gregorian.DaysBeforeMonth | jahreskalender.py:82 | The days before month m, plus month m's length, never exceed the year's length, with equality for December. |
| Gregorian.DaysBeforeNextMonth | jahreskalender.py:82 | Consecutive months are adjacent: month m+1 starts where month m ends. |
| Gregorian.DaysBeforeYearStep | jahreskalender.py:88 | The days before year y+1 are the days before year y plus year y's length. |
| Gregorian.DaysBeforeYearClosedForm | jahreskalender.py:88 | The recursive day count before a year equals the closed form 365(y-1) + (y-1)/4 - (y-1)/100 + (y-1)/400 that Python's `date.toordinal` uses. |
| Gregorian.DaysBeforeYearMonotone | jahreskalender.py:88 | Later years start at least 365 days per year later. |
| Gregorian.YearLength | jahreskalender.py:88 | Consecutive year starts are 365 or 366 days apart. |
| Gregorian.Weekday | jahreskalender.py:89 | `weekday()` is in 0..6. |
| Gregorian.WeekdayCycle | jahreskalender.py:89 | Day 1 (0001-01-01) is a Monday, and the weekday repeats every seven days. |
| Gregorian.MondayOf | jahreskalender.py:89 | Stepping back by a day's weekday lands on a Monday. |
| Gregorian.NextMonth | jahreskalender.py:82 | The month after (y, m), as `calendar._nextmonth` computes it inside `itermonthdates`: a different month in 1..12. `Gregorian.PrevMonth` inverts it, and `Gregorian.NextMonthContinues` shows its 1st follows the last day of (y, m). |
| Gregorian.PrevMonth | jahreskalender.py:82 | The month before (y, m) is a different month whose successor is (y, m). |
| Gregorian.Ordinal | jahreskalender.py:88-89 | `date.toordinal()`, on which `weekday()` and `isocalendar()` are computed. Its contract is in `Gregorian.OrdinalWithinYear` and `Gregorian.OrdinalInjective`: a valid date's ordinal lies in its year's interval, and distinct dates have distinct ordinals. |
| Gregorian.OrdinalWithinYear | jahreskalender.py:88-89 | A valid date's ordinal lies between its year's start and the next year's start. |
| Gregorian.NextMonthContinues | jahreskalender.py:82 | The first day of the next month directly follows the last day of this month. |
| Gregorian.OrdinalInjective | jahreskalender.py:88-89 | Distinct valid dates have distinct ordinals. |
| Gregorian.MonthsOrdered | jahreskalender.py:81-86 | An earlier month of a year ends before a later month begins. |
| IsoWeek.MondayNearest | jahreskalender.py:88 | `isocalendar`'s week-1 Monday is a Monday whose Thursday falls in the first seven days from the given start. |
| IsoWeek.Week1Monday | jahreskalender.py:88 | Week 1's Monday of year y is a Monday whose Thursday lies in the first week of January. |
| IsoWeek.IsoCalendar | jahreskalender.py:88 | `isocalendar()`'s weekday is `weekday() + 1`, and its year is within one of the date's year. |
| IsoWeek.IsoWeekDate | jahreskalender.py:88 | The body of `isocalendar()` on an ordinal, with its three branches. Its weekday is `weekday() + 1` and its year is within one of the calendar year. `IsoWeek.IsoWeekDateRule` shows its year and week are the Thursday rule's. |
| IsoWeek.IsoWeekDateRule | jahreskalender.py:88 | For every day of year y, Python's three-branch algorithm (previous year, next year, this year) returns the ISO year and week that the Thursday rule assigns, and the week is in 1..53. |
| IsoWeek.IsoCalendarWeek | jahreskalender.py:88 | `isocalendar()` of a valid date satisfies the Thursday rule, with week 1..53. |
| IsoWeek.ThursdayRuleUnique | jahreskalender.py:88 | A day belongs to at most one (ISO year, week) under the Thursday rule. |
| IsoWeek.IsoCalendarIsThursdayRule | jahreskalender.py:88 | (y, w) is `isocalendar()`'s year and week of a date exactly when the date's Thursday is in year y, in that year's w-th week. |
| IsoWeek.Week1MondaySpacing | jahreskalender.py:88 | Consecutive week-1 Mondays are 52 or 53 weeks apart. |
| IsoWeek.Example2026Thursday | jahreskalender.py:88-89 | 2026-01-01 is a Thursday. |
| IsoWeek.Example2026Week1 | jahreskalender.py:88 | Monday 2025-12-29 is ISO 2026-W01-1. |
| IsoWeek.Example2026Week2 | jahreskalender.py:88 | Monday 2026-01-05 is ISO 2026-W02-1. |
| MonthIteration.DaysBefore | jahreskalender.py:77 | With Monday as the first weekday, the leading padding is 0..6 days and starts on a Monday. |
| MonthIteration.DaysAfter | jahreskalender.py:77 | The trailing padding is 0..6 days and completes the last week. |
| MonthIteration.MonthDays | jahreskalender.py:82-86 | A month's own days are exactly the dates 1..DaysInMonth of that month, in order. |
| MonthIteration.PaddedMonth | jahreskalender.py:77-82 | The run `itermonthdays3` yields for a month with Monday first: leading days, the month's days, trailing days. Its contract is in `MonthIteration.PaddedMonthWeeks` and `MonthIteration.MonthFilterExact`. |
| MonthIteration.PaddedMonthWeeks | jahreskalender.py:77-82 | `itermonthdates` yields 4 to 6 whole weeks of consecutive valid dates. They start on a Monday in the week of the 1st and end in the week of the month's last day. |
| MonthIteration.KeepMonth | jahreskalender.py:84-86 | The filter keeps only dates of the given month, each taken from the input. |
| MonthIteration.KeepMonthCounts | jahreskalender.py:84-86 | The filter keeps every date of the month as often as it occurs and drops every other date. |
| MonthIteration.KeepMonthConcat | jahreskalender.py:84-86 | The filter distributes over concatenation. |
| MonthIteration.PaddingFilteredOut | jahreskalender.py:85-86 | Every padding day belongs to another month and is skipped. |
| MonthIteration.MonthFilterExact | jahreskalender.py:82-86 | Filtering the padded month by its own number leaves exactly that month's days, 1st to last, in order. |
| MonthIteration.IterMonthDates | jahreskalender.py:82 | `itermonthdates` succeeds exactly for the months of years 1..9998 and January to November 9999. It raises for December 9999 and for every other year. On success it yields the padded month. |
| MonthIteration.PaddingRepresentable | jahreskalender.py:82 | Every date of a month's padded run is a representable `datetime.date` exactly for years 1..9999 other than December 9999. |
| MonthIteration.OwnMonthInPadding | jahreskalender.py:82 | The 1st of the month sits right after the leading padding. |
| MonthIteration.December9999Overflows | jahreskalender.py:82 | December 9999 is padded with two days, the last of which is 10000-01-02. |
| MonthIteration.January1NoPadding | jahreskalender.py:82 | January of year 1 starts on a Monday, so it needs no leading padding. |
| MonthIteration.PaddingInRange | jahreskalender.py:82 | For years 1..9999, except December 9999, every padded date is a representable `datetime.date`. |
| Layout.Landscape | jahreskalender.py:57-58 | `landscape` makes the longer side the width and keeps both sides. |
| Layout.GridFor | jahreskalender.py:60-79 | 12 columns and 33 rows tile the page inside the 40-point margins exactly, and the day rows start two row heights below the top margin. |
| Layout.PageGrid | jahreskalender.py:57-62 | Landscape A4 is wider than high, and its cells exceed 60 points in width and 15 in height. |
| Layout.TimesIsProduct | jahreskalender.py:94-95 | Laying k steps end to end is k times the step. |
| Layout.TimesMonotone | jahreskalender.py:94-95 | Lattice offsets i < j are at least one step apart. |
| Layout.CellOrigin | jahreskalender.py:92-95 | The bottom-left corner of the cell of (month, day). `Layout.CellOriginFormula` shows it equals the source's formula. |
| Layout.CellOriginFormula | jahreskalender.py:92-95 | A day cell's corner is x = margin + (month-1)·cell_width and y = y_start - day·cell_height. |
| Layout.TitleAnchor | jahreskalender.py:66 | Where the year is centred: mid-page on the top margin. `YearPlan.CreateYearPlanPage` states that a plan's title is drawn there, and `Layout.HeadersFitOnA4` places the month names below it. |
| Layout.MonthNameAnchor | jahreskalender.py:72-74 | Month name i is centred over column i, which holds month i+1's days. |
| Layout.CellWithinMargins | jahreskalender.py:60-95 | Every day cell lies inside the margins and below the header rows. Column 12 ends exactly on the right margin, the row of day 31 ends exactly on the bottom margin, and the row of day 1 starts exactly under the header rows. |
| Layout.CellsDisjoint | jahreskalender.py:92-95 | Cells of different (month, day) pairs never overlap. |
| Layout.HeadersFitOnA4 | jahreskalender.py:66-79 | On landscape A4 the month names lie below the title and above the first day row. |
| YearPlan.CellOf | jahreskalender.py:88-116 | A day's cell has the date's month and day and its weekday. It is shaded and bold exactly on Saturday and Sunday. It carries a week label exactly on Mondays, and that label is the ISO week under the Thursday rule. Its corner is the grid position of (month, day). |
| YearPlan.MonthDates | jahreskalender.py:82-86 | The inner loop for one month: the padded run of `itermonthdates`, filtered by line 85. `MonthIteration.MonthFilterExact` shows it is exactly the month's days 1..DaysInMonth, in order. |
| YearPlan.DatesFrom | jahreskalender.py:81-86 | The nested loop over months m..12, each month's padded run filtered by line 85. `YearPlan.DatesFromCalendar` shows it equals the reference listing of the year's days. |
| YearPlan.CalendarFrom | jahreskalender.py:81-86 | The reference listing of months m..12 holds only valid dates of year y from month m on. |
| YearPlan.DatesFromCalendar | jahreskalender.py:81-86 | The nested loop (padded months, filtered) visits exactly the reference listing of the year's days. |
| YearPlan.CalendarFromLength | jahreskalender.py:81-86 | The loop from month m on visits as many days as remain in the year. |
| YearPlan.CalendarFromOrdered | jahreskalender.py:81-86 | Days are visited in calendar order. |
| YearPlan.CalendarFromCovers | jahreskalender.py:81-86 | Every valid date of the year from month m on is visited. |
| YearPlan.YearDatesExact | jahreskalender.py:81-86 | The loop visits each date of the year exactly once: DaysInYear dates, all valid, all of year y, none missing, none repeated. |
| YearPlan.YearDates | jahreskalender.py:81-86 | When every month's `itermonthdates` succeeds, the loop yields the reference listing of the year. |
| YearPlan.YearDatesFails | jahreskalender.py:81-82 | Iterating a year's months fails exactly for years outside 1..9998. |
| YearPlan.CellsOf | jahreskalender.py:84-116 | One cell is drawn per visited date. |
| YearPlan.CalendarCells | jahreskalender.py:81-116 | A year's grid has one cell per day of the year. |
| YearPlan.CellOps | jahreskalender.py:97-116 | The drawing calls for one cell, in order. Their shape and content are stated by `YearPlan.CellOpsShape`, `YearPlan.CellOpsContent`, `YearPlan.CellLabelFont` and `YearPlan.WeekNumberLabel`. |
| YearPlan.CellOpsShape | jahreskalender.py:97-116 | Each cell gets exactly one border rectangle. A filled rectangle is drawn exactly for weekend cells, and it comes before the border. The size-8 label font is bold exactly for weekends. A right-aligned string is drawn exactly for Mondays; `YearPlan.WeekNumberLabel` says it is the week number, and `YearPlan.CellLabelFont` says which font the label is drawn in. |
| YearPlan.CellOpsContent | jahreskalender.py:97-101 | The grey fill covers exactly the cell and is drawn between `setFillColor(lightgrey)` and `setFillColor(black)`. |
| YearPlan.WeekNumberLabel | jahreskalender.py:114-116 | Every right-aligned string is the cell's week number `str(week)` at (x+60, y+4). It is drawn only in cells that carry a week label, right after switching to Helvetica-Bold 9. |
| YearPlan.CellLabelFont | jahreskalender.py:106-113 | The day label is drawn once, at (x+4, y+4), with the weekday and `str(day)`. It is drawn right after setting its own size-8 font, Helvetica-Bold on weekends and Helvetica otherwise, so no font carries over from the previous cell. |
| YearPlan.CreateYearPlan | jahreskalender.py:41-116 | A run succeeds exactly when the resolved year (the given one, or the clock's year plus one) is in 1..9998. A successful plan carries the resolved inputs and the landscape-A4 grid, and its cells are the year's calendar grid. |
| YearPlan.CreateYearPlanPage | jahreskalender.py:64-116 | For a resolved year in 1..9998 the run succeeds. Its title reads back as the year and is centred mid-page on the top margin, its twelve month names are centred over their columns, and its cells are the year's calendar grid. |
| YearPlan.YearCellsSound | jahreskalender.py:81-116 | Every drawn cell, the i-th of the year's grid, is the cell of some valid date of the year. |
| YearPlan.CellsDistinct | jahreskalender.py:81-95 | No two cells of a year's grid share a (month, day) pair, so no grid position is drawn twice. |
| YearPlan.YearCellsComplete | jahreskalender.py:81-116 | Every valid date of the year gets its cell drawn. |
| YearPlan.CellsInsideAndDisjoint | jahreskalender.py:79-104 | On the planner's page, every day cell of a year lies inside the margins, below the header rows, and no two days' cells overlap. |

## Left out

- The PDF itself: reportlab's canvas, `setFont`/`drawString` rendering and `c.save()` (lines 57, 65-66, 71, 118). They are represented by the `DrawOp` list of each cell, and by the title and month-name anchors.
- `locale.setlocale` (line 33): it is the parameter `accepts`, which says which locale names the platform takes. The process-wide side effect of setting a locale is not modelled.
- `datetime.now()` (line 44): it is the parameter `clockYear`.
- Text that depends on the active locale: the `strftime('%a')` weekday abbreviation with `capitalize()` and `rstrip('.')` (line 112), and `calendar.month_name` (line 69). A day label carries the weekday index and the day number instead. The month-name strings are not modelled; their anchors are.
- The title and month-name fonts (lines 65, 71), and the console messages of lines 51 and 119. The warning of line 51 is the `warning` flag of `Locales.Resolved`.
- The command-line interface (`parse_args` and the `__main__` block, lines 123-148).
- Floating point: the geometry uses exact reals. Rounding in reportlab's float arithmetic is not modelled.
- Gregorian.Weekday: for years outside 1..9999 it uses the proleptic ordinal. Python's `calendar.weekday` maps such years into range by the 400-year cycle, which gives the same weekday. This only concerns years for which the planner fails anyway.
- `date.isocalendar` is modelled on Python's proleptic ordinals. Outside years 1..9999 Python cannot construct a date at all.
- Python versions before 3.7: there `itermonthdates` stopped silently at the date overflow, so year 9999 also produced a plan. The model follows Python 3.7 and later.

=== FILE: decimal.dfy ===
/** Python's `str(n)` for integers, as the planner uses it in f-strings
    for the year (title and default file name) and the week number, and
    the parser that inverts it. */
module Decimal {
  import opened Wrappers

  predicate IsDigit(c: char) {
    '0' <= c <= '9'
  }

  predicate AllDigits(s: string) {
    forall i :: 0 <= i < |s| ==> IsDigit(s[i])
  }

  function DigitChar(d: int): (c: char)
    requires 0 <= d < 10
    ensures IsDigit(c)
  {
    (d + '0' as int) as char
  }

  function DigitValue(c: char): (d: int)
    requires IsDigit(c)
    ensures 0 <= d < 10
    ensures DigitChar(d) == c
  {
    (c as int) - ('0' as int)
  }

  /** Decimal digits of a natural number, most significant first, with no
      leading zero. */
  function NatToString(n: nat): (s: string)
    ensures |s| >= 1
    ensures AllDigits(s)
    ensures s[0] == '0' ==> n == 0
  {
    if n < 10 then [DigitChar(n)] else NatToString(n / 10) + [DigitChar(n % 10)]
  }

  /** `str(n)`: a minus sign before the digits of a negative number. */
  function IntToString(n: int): (s: string)
    ensures |s| >= 1
    ensures s[0] == '-' <==> n < 0
  {
    if n < 0 then "-" + NatToString(-n) else NatToString(n)
  }

  /** The value of a run of decimal digits (0 for the empty run). */
  function DigitsValue(s: string): (n: nat)
    requires AllDigits(s)
  {
    if s == [] then 0 else DigitsValue(s[..|s| - 1]) * 10 + DigitValue(s[|s| - 1])
  }

  /** `int(s)` restricted to what `str` produces: an optional minus sign
      followed by at least one digit. */
  function ParseInt(s: string): Option<int> {
    if |s| > 0 && s[0] == '-' then
      var digits := s[1..];
      if |digits| > 0 && AllDigits(digits)
      then Some(0 - DigitsValue(digits) as int) else None
    else if |s| > 0 && AllDigits(s)
    then Some(DigitsValue(s) as int) else None
  }

  lemma {:induction false} NatRoundTrip(n: nat)
    ensures DigitsValue(NatToString(n)) == n
  {
    var s := NatToString(n);
    if n >= 10 {
      NatRoundTrip(n / 10);
      assert s[..|s| - 1] == NatToString(n / 10);
    }
  }

  /** A non-empty digit run parses to its value. */
  lemma ParseDigits(digits: string)
    requires |digits| > 0 && AllDigits(digits)
    ensures ParseInt(digits) == Some(DigitsValue(digits) as int)
  {
    assert IsDigit(digits[0]);
  }

  /** Behind a minus sign, a non-empty digit run parses to minus its value. */
  lemma ParseNegative(digits: string)
    requires |digits| > 0 && AllDigits(digits)
    ensures ParseInt("-" + digits) == Some(0 - DigitsValue(digits) as int)
  {
    assert ("-" + digits)[1..] == digits;
  }

  /** Parsing undoes printing. */
  lemma RoundTrip(n: int)
    ensures ParseInt(IntToString(n)) == Some(n)
  {
    var m: nat := if n < 0 then -n else n;
    var digits := NatToString(m);
    NatRoundTrip(m);
    if n < 0 {
      ParseNegative(digits);
    } else {
      ParseDigits(digits);
    }
  }

  /** Different integers print differently. */
  lemma IntToStringInjective(a: int, b: int)
    requires IntToString(a) == IntToString(b)
    ensures a == b
  {
    RoundTrip(a);
    RoundTrip(b);
  }
}

=== FILE: gregorian.dfy ===
/** The proleptic Gregorian calendar as Python's `datetime` module counts
    it: leap years, month lengths, and the ordinal day count in which
    0001-01-01 is day 1 and a Monday. Weekdays are numbered Monday = 0
    through Sunday = 6, as `date.weekday()` returns them. */
module Gregorian {

  /** The year range of `datetime.date` (MINYEAR and MAXYEAR). */
  const MinYear: int := 1
  const MaxYear: int := 9999

  /** A (year, month, day) triple. Not every triple is a calendar date:
      see ValidDate and InDatetimeRange. */
  datatype Date = Date(year: int, month: int, day: int)

  predicate IsLeapYear(y: int) {
    y % 4 == 0 && (y % 100 != 0 || y % 400 == 0)
  }

  function DaysInYear(y: int): (n: int)
    ensures n == 365 || n == 366
    ensures n == 366 <==> IsLeapYear(y)
  {
    if IsLeapYear(y) then 366 else 365
  }

  function DaysInMonth(y: int, m: int): (n: int)
    requires 1 <= m <= 12
    ensures 28 <= n <= 31
    ensures m == 2 ==> (n == 29 <==> IsLeapYear(y))
    ensures m != 2 ==> (n == 30 <==> (m == 4 || m == 6 || m == 9 || m == 11))
  {
    if m == 2 then (if IsLeapYear(y) then 29 else 28)
    else if m == 4 || m == 6 || m == 9 || m == 11 then 30
    else 31
  }

  predicate ValidDate(d: Date) {
    1 <= d.month <= 12 && 1 <= d.day <= DaysInMonth(d.year, d.month)
  }

  /** True when `datetime.date(d.year, d.month, d.day)` can be built. */
  predicate InDatetimeRange(d: Date) {
    MinYear <= d.year <= MaxYear && ValidDate(d)
  }

  /** Number of days in the months of `y` before month `m`: Python's
      `_DAYS_BEFORE_MONTH` table plus one after February of a leap year. */
  function DaysBeforeMonth(y: int, m: int): (n: int)
    requires 1 <= m <= 12
    ensures 0 <= n <= 335
    ensures n + DaysInMonth(y, m) <= DaysInYear(y)
    ensures m == 12 ==> n + DaysInMonth(y, m) == DaysInYear(y)
  {
    var table := [0, 31, 59, 90, 120, 151, 181, 212, 243, 273, 304, 334];
    table[m - 1] + (if m > 2 && IsLeapYear(y) then 1 else 0)
  }

  /** Consecutive months follow each other in the day count. */
  lemma DaysBeforeNextMonth(y: int, m: int)
    requires 1 <= m < 12
    ensures DaysBeforeMonth(y, m + 1) == DaysBeforeMonth(y, m) + DaysInMonth(y, m)
  {
  }

  /** Number of days before January 1st of `y`, counted from 0001-01-01:
      the lengths of the years in between, summed (negative before year 1). */
  function DaysBeforeYear(y: int): int
    decreases if y >= 1 then y - 1 else 1 - y
  {
    if y == 1 then 0
    else if y > 1 then DaysBeforeYear(y - 1) + DaysInYear(y - 1)
    else DaysBeforeYear(y + 1) - DaysInYear(y)
  }

  /** The closed form Python computes (`_days_before_year`); `/` is floor
      division here because every divisor is positive. */
  function DaysBeforeYearFormula(y: int): int {
    var z := y - 1;
    z * 365 + z / 4 - z / 100 + z / 400
  }

  /** Ordinal day number of a date (Python's `date.toordinal()`). */
  function Ordinal(d: Date): int
    requires 1 <= d.month <= 12
  {
    DaysBeforeYear(d.year) + DaysBeforeMonth(d.year, d.month) + d.day
  }

  /** Weekday of an ordinal day, Monday = 0 (`date.weekday()`). */
  function Weekday(n: int): (w: int)
    ensures 0 <= w < 7
  {
    (n + 6) % 7
  }

  /** Day 1 is a Monday: day `n` is `Weekday(n)` days past a Monday, and
      Mondays are the days one more than a multiple of 7. */
  lemma WeekdayCycle(n: int)
    ensures (n - Weekday(n)) % 7 == 1
    ensures Weekday(n) == 0 <==> n % 7 == 1
  {
  }

  /** Stepping back by its weekday from any day lands on a Monday. */
  lemma MondayOf(n: int)
    ensures Weekday(n - Weekday(n)) == 0
  {
  }

  /** The month after (y, m) (Python's `calendar._nextmonth`). */
  function NextMonth(y: int, m: int): (r: (int, int))
    requires 1 <= m <= 12
    ensures 1 <= r.1 <= 12 && r.1 != m
  {
    if m == 12 then (y + 1, 1) else (y, m + 1)
  }

  /** The month before (y, m) (Python's `calendar._prevmonth`). */
  function PrevMonth(y: int, m: int): (r: (int, int))
    requires 1 <= m <= 12
    ensures 1 <= r.1 <= 12 && r.1 != m
    ensures NextMonth(r.0, r.1) == (y, m)
  {
    if m == 1 then (y - 1, 12) else (y, m - 1)
  }

  /** A year contributes exactly its own length to the day count. */
  lemma DaysBeforeYearStep(y: int)
    ensures DaysBeforeYear(y + 1) == DaysBeforeYear(y) + DaysInYear(y)
  {
  }

  /** A year is 365 or 366 days long in the day count. */
  lemma YearLength(y: int)
    ensures DaysBeforeYear(y) + 365 <= DaysBeforeYear(y + 1) <= DaysBeforeYear(y) + 366
  {
    DaysBeforeYearStep(y);
  }

  /** The closed form steps by one year length, like the sum does. */
  lemma FormulaStep(y: int)
    ensures DaysBeforeYearFormula(y + 1) == DaysBeforeYearFormula(y) + DaysInYear(y)
  {
    var z := y - 1;
    DivStep(z, 4);
    DivStep(z, 100);
    DivStep(z, 400);
  }

  /** Python's closed form counts the same days as the year-by-year sum. */
  lemma {:induction false} DaysBeforeYearClosedForm(y: int)
    ensures DaysBeforeYear(y) == DaysBeforeYearFormula(y)
    decreases if y >= 1 then y - 1 else 1 - y
  {
    if y > 1 {
      DaysBeforeYearClosedForm(y - 1);
      FormulaStep(y - 1);
    } else if y < 1 {
      DaysBeforeYearClosedForm(y + 1);
      FormulaStep(y);
    }
  }

  /** Floor division by 4, 100 and 400 steps up exactly at multiples. */
  lemma DivStep(z: int, k: int)
    requires k == 4 || k == 100 || k == 400
    ensures (z + 1) / k == z / k + (if (z + 1) % k == 0 then 1 else 0)
  {
    // One branch per divisor, so that each proof sees a constant divisor.
    if k == 4 {
    } else if k == 100 {
    } else {
    }
  }

  lemma {:induction false} DaysBeforeYearMonotone(a: int, b: int)
    requires a <= b
    ensures DaysBeforeYear(a) + 365 * (b - a) <= DaysBeforeYear(b)
    decreases b - a
  {
    if a < b {
      DaysBeforeYearMonotone(a, b - 1);
      DaysBeforeYearStep(b - 1);
    }
  }

  /** The ordinal of a valid date lies inside its year's ordinal interval. */
  lemma OrdinalWithinYear(d: Date)
    requires ValidDate(d)
    ensures DaysBeforeYear(d.year) < Ordinal(d) <= DaysBeforeYear(d.year + 1)
  {
    DaysBeforeYearStep(d.year);
  }

  /** The first day of the next month follows the last day of this one,
      also across a year boundary. */
  lemma NextMonthContinues(y: int, m: int)
    requires 1 <= m <= 12
    ensures Ordinal(Date(NextMonth(y, m).0, NextMonth(y, m).1, 1))
         == Ordinal(Date(y, m, DaysInMonth(y, m))) + 1
  {
    if m == 12 {
      DaysBeforeYearStep(y);
    }
  }

  /** Two valid dates with the same ordinal are the same date. */
  lemma {:induction false} OrdinalInjective(a: Date, b: Date)
    requires ValidDate(a) && ValidDate(b)
    requires Ordinal(a) == Ordinal(b)
    ensures a == b
  {
    OrdinalWithinYear(a);
    OrdinalWithinYear(b);
    if a.year < b.year {
      DaysBeforeYearMonotone(a.year + 1, b.year);
      assert false;
    } else if b.year < a.year {
      DaysBeforeYearMonotone(b.year + 1, a.year);
      assert false;
    } else if a.month < b.month {
      MonthsOrdered(a.year, a.month, b.month);
    } else if b.month < a.month {
      MonthsOrdered(a.year, b.month, a.month);
    }
  }

  lemma {:induction false} MonthsOrdered(y: int, m1: int, m2: int)
    requires 1 <= m1 < m2 <= 12
    ensures DaysBeforeMonth(y, m1) + DaysInMonth(y, m1) <= DaysBeforeMonth(y, m2)
    decreases m2 - m1
  {
    if m1 + 1 < m2 {
      MonthsOrdered(y, m1, m2 - 1);
    }
  }
}

=== FILE: isoweek.dfy ===
/** ISO 8601 week numbering (ISO 8601:2004 section 4.1.4, week dates):
    weeks start on Monday and week 1 of a year is the week holding that
    year's first Thursday. `IsoCalendar` follows the algorithm of
    Python's `date.isocalendar()`, which the year planner calls for every
    day it draws; `ThursdayRule` is the definition in the standard's own
    terms, and the two are proved to agree. */
module IsoWeek {
  import opened Gregorian

  const Thursday: int := 3

  /** (ISO year, ISO week, ISO weekday with Monday = 1). */
  datatype IsoDate = IsoDate(year: int, week: int, weekday: int)

  /** Ordinal of the Thursday of the Monday-to-Sunday week holding day `n`. */
  function ThursdayOf(n: int): (t: int)
    ensures n - 3 <= t <= n + 3
  {
    n - Weekday(n) + Thursday
  }

  /** The standard's definition: day `n` lies in week `w` of ISO year `y`
      when the Thursday of its week falls in calendar year `y`, and `w`
      counts the Thursdays of `y` up to and including that one. */
  predicate ThursdayRule(n: int, y: int, w: int) {
    InWeekOfSpan(n, DaysBeforeYear(y), DaysBeforeYear(y + 1), w)
  }

  /** Day `n` lies in week `w` of the year spanning the day numbers after
      `start` up to `end`, by the Thursday rule. */
  predicate InWeekOfSpan(n: int, start: int, end: int, w: int) {
    var t := ThursdayOf(n);
    start < t <= end && w == (t - start - 1) / 7 + 1
  }

  /** Day `n` has ISO week number `w` in some ISO year. */
  ghost predicate HasIsoWeek(n: int, w: int) {
    exists y :: ThursdayRule(n, y, w)
  }

  /** The Monday of the week holding the Thursday nearest to day `first`:
      the Monday on or before `first` when `first` falls Monday to
      Thursday, else the Monday after it. */
  function MondayNearest(first: int): (r: int)
    ensures Weekday(r) == 0
    ensures first <= r + Thursday < first + 7
  {
    var firstWeekday := Weekday(first);
    var monday := first - firstWeekday;
    if firstWeekday > Thursday then monday + 7 else monday
  }

  /** Ordinal of the Monday that starts ISO week 1 of `y` (Python's
      `_isoweek1monday`, applied to the ordinal of January 1st). */
  function Week1Monday(y: int): (r: int)
    ensures Weekday(r) == 0
    ensures DaysBeforeYear(y) < r + Thursday <= DaysBeforeYear(y) + 7
  {
    MondayNearest(DaysBeforeYear(y) + 1)
  }

  /** `date(d.year, d.month, d.day).isocalendar()`: locate the day
      relative to week 1 of its calendar year, falling back to the previous
      ISO year before that week and moving on to the next ISO year once the
      day reaches the next year's week 1. Python's `divmod` floors, and so
      does `/` with a positive divisor. */
  function IsoCalendar(d: Date): (r: IsoDate)
    requires ValidDate(d)
    ensures r.weekday == Weekday(Ordinal(d)) + 1
    ensures d.year - 1 <= r.year <= d.year + 1
  {
    IsoWeekDate(Ordinal(d), d.year)
  }

  /** The body of `isocalendar` once `today = toordinal()` is known, for a
      day of calendar year `y`. */
  function IsoWeekDate(today: int, y: int): (r: IsoDate)
    ensures r.weekday == Weekday(today) + 1
    ensures y - 1 <= r.year <= y + 1
  {
    var w1 := Week1Monday(y);
    var week := (today - w1) / 7;
    var day := (today - w1) % 7;
    OffsetFromMonday(today, w1);
    if week < 0 then
      var w0 := Week1Monday(y - 1);
      OffsetFromMonday(today, w0);
      IsoDate(y - 1, (today - w0) / 7 + 1, (today - w0) % 7 + 1)
    else if week >= 52 && today >= Week1Monday(y + 1) then
      IsoDate(y + 1, 1, day + 1)
    else
      IsoDate(y, week + 1, day + 1)
  }

  /** Two Mondays are a whole number of weeks apart. */
  lemma MondaysApart(a: int, b: int)
    requires Weekday(a) == 0 && Weekday(b) == 0
    ensures (b - a) % 7 == 0
  {
  }

  /** Week 1 Mondays of two years whose January 1st days are `first1`
      and `first2`, one year apart, are 52 or 53 weeks apart. */
  lemma MondayNearestSpacing(first1: int, first2: int)
    requires first1 + 365 <= first2 <= first1 + 366
    ensures MondayNearest(first1) + 364 <= MondayNearest(first2) <= MondayNearest(first1) + 371
  {
    var a, b := MondayNearest(first1), MondayNearest(first2);
    MondaysApart(a, b);
    var k := (b - a) / 7;
    assert b - a == 7 * k;
  }

  /** Day `n` between the week 1 Mondays of a year spanning ordinals
      `lo + 1 .. hi` and of the next year has its Thursday inside the year,
      and counting Thursdays from the year start gives the same week as
      counting Mondays from week 1. */
  lemma BetweenMondays(n: int, lo: int, hi: int)
    requires lo + 365 <= hi <= lo + 366
    requires MondayNearest(lo + 1) <= n < MondayNearest(hi + 1)
    ensures lo < ThursdayOf(n) <= hi
    ensures (ThursdayOf(n) - lo - 1) / 7 == (n - MondayNearest(lo + 1)) / 7
    ensures n - MondayNearest(lo + 1) < 371
  {
    var w1, w2 := MondayNearest(lo + 1), MondayNearest(hi + 1);
    var wd := Weekday(n);
    MondayOf(n);
    MondaysApart(w1, n - wd);
    MondaysApart(n - wd, w2);
    WeekCount(n, wd, lo, hi, w1, w2);
  }

  /** BetweenMondays on plain numbers: `w1` and `w2` are the Mondays
      nearest the starts `lo + 1` and `hi + 1` of two consecutive years,
      and day `n`, of weekday `wd`, lies between them. */
  lemma WeekCount(n: int, wd: int, lo: int, hi: int, w1: int, w2: int)
    requires lo + 365 <= hi <= lo + 366
    requires lo + 1 <= w1 + Thursday < lo + 8 && hi + 1 <= w2 + Thursday < hi + 8
    requires w1 <= n < w2 && 0 <= wd < 7
    requires (n - wd - w1) % 7 == 0 && (w2 - (n - wd)) % 7 == 0
    ensures lo < n - wd + Thursday <= hi
    ensures (n - wd + Thursday - lo - 1) / 7 == (n - w1) / 7
    ensures n - w1 < 371
  {
    var k := (n - wd - w1) / 7;
    assert n - wd == w1 + 7 * k;
    assert n - wd <= w2 - 7;
    var off := w1 + Thursday - lo - 1;
    WeeksAndRest(k, off);
    WeeksAndRest(k, wd);
  }

  /** `k` whole weeks and `r` more days make `k` weeks, floored. */
  lemma WeeksAndRest(k: int, r: int)
    requires 0 <= r < 7
    ensures (7 * k + r) / 7 == k
  {
  }

  /** The offset of a day from a Monday, modulo 7, is its weekday. */
  lemma OffsetFromMonday(n: int, monday: int)
    requires Weekday(monday) == 0
    ensures (n - monday) % 7 == Weekday(n)
  {
  }

  /** The branches of `isocalendar` on plain day counts, for a year
      spanning the day numbers after `lo` up to `hi`, the year before it
      starting after `prev` and the year after it ending at `next`. A day
      before week 1 belongs to the previous year's last week. */
  lemma IsoBranchPrev(today: int, prev: int, lo: int)
    requires prev + 365 <= lo <= prev + 366
    requires lo < today < MondayNearest(lo + 1)
    ensures InWeekOfSpan(today, prev, lo, (today - MondayNearest(prev + 1)) / 7 + 1)
    ensures 0 <= (today - MondayNearest(prev + 1)) / 7 <= 52
  {
    BetweenMondays(today, prev, lo);
  }

  /** From the next year's week 1 on, a day belongs to that week. */
  lemma IsoBranchNext(today: int, hi: int, next: int)
    requires hi + 365 <= next <= hi + 366
    requires MondayNearest(hi + 1) <= today <= hi
    ensures InWeekOfSpan(today, hi, next, 1)
  {
    BetweenMondays(today, hi, next);
  }

  /** In between, weeks are counted from the year's own week 1. */
  lemma IsoBranchSame(today: int, lo: int, hi: int)
    requires lo + 365 <= hi <= lo + 366
    requires MondayNearest(lo + 1) <= today < MondayNearest(hi + 1)
    ensures InWeekOfSpan(today, lo, hi, (today - MondayNearest(lo + 1)) / 7 + 1)
    ensures (today - MondayNearest(lo + 1)) / 7 <= 52
  {
    BetweenMondays(today, lo, hi);
  }

  /** Week 1 Mondays of consecutive years are 52 or 53 weeks apart. */
  lemma Week1MondaySpacing(y: int)
    ensures Week1Monday(y) + 364 <= Week1Monday(y + 1) <= Week1Monday(y) + 371
  {
    DaysBeforeYearStep(y);
    MondayNearestSpacing(DaysBeforeYear(y) + 1, DaysBeforeYear(y + 1) + 1);
  }

  /** `isocalendar`'s first branch: a day of year `y` before its week 1
      lies in the last week of `y - 1`. */
  lemma IsoPrevYear(today: int, y: int)
    requires DaysBeforeYear(y) < today < Week1Monday(y)
    ensures ThursdayRule(today, y - 1, (today - Week1Monday(y - 1)) / 7 + 1)
    ensures 0 <= (today - Week1Monday(y - 1)) / 7 <= 52
  {
    YearLength(y - 1);
    IsoBranchPrev(today, DaysBeforeYear(y - 1), DaysBeforeYear(y));
  }

  /** The second branch: from week 1 of `y + 1` on, a day of year `y`
      lies in week 1 of `y + 1`. */
  lemma IsoNextYear(today: int, y: int)
    requires Week1Monday(y + 1) <= today <= DaysBeforeYear(y + 1)
    ensures ThursdayRule(today, y + 1, 1)
  {
    YearLength(y + 1);
    IsoBranchNext(today, DaysBeforeYear(y + 1), DaysBeforeYear(y + 2));
  }

  /** The third branch: between the week 1 Mondays of `y` and `y + 1`,
      weeks are counted from week 1 of `y`. */
  lemma IsoSameYear(today: int, y: int)
    requires Week1Monday(y) <= today < Week1Monday(y + 1)
    ensures ThursdayRule(today, y, (today - Week1Monday(y)) / 7 + 1)
    ensures (today - Week1Monday(y)) / 7 <= 52
  {
    YearLength(y);
    IsoBranchSame(today, DaysBeforeYear(y), DaysBeforeYear(y + 1));
  }

  /** For a day of year `y`, the three branches compute the week the
      Thursday rule defines. */
  lemma IsoWeekDateRule(today: int, y: int)
    requires DaysBeforeYear(y) < today <= DaysBeforeYear(y + 1)
    ensures ThursdayRule(today, IsoWeekDate(today, y).year, IsoWeekDate(today, y).week)
    ensures 1 <= IsoWeekDate(today, y).week <= 53
  {
    var week := (today - Week1Monday(y)) / 7;
    if week < 0 {
      IsoPrevYear(today, y);
    } else if week >= 52 && today >= Week1Monday(y + 1) {
      IsoNextYear(today, y);
    } else {
      Week1MondaySpacing(y);
      IsoSameYear(today, y);
    }
  }

  /** Python's `isocalendar` computes the week the standard defines: the
      Thursday of the day's week falls in the ISO year it returns, and the
      week number counts that year's Thursdays. */
  lemma IsoCalendarWeek(d: Date)
    requires ValidDate(d)
    ensures ThursdayRule(Ordinal(d), IsoCalendar(d).year, IsoCalendar(d).week)
    ensures 1 <= IsoCalendar(d).week <= 53
  {
    OrdinalWithinYear(d);
    IsoWeekDateRule(Ordinal(d), d.year);
  }

  /** The Thursday rule gives every day a single ISO year and week. */
  lemma ThursdayRuleUnique(n: int, y1: int, w1: int, y2: int, w2: int)
    requires ThursdayRule(n, y1, w1) && ThursdayRule(n, y2, w2)
    ensures y1 == y2 && w1 == w2
  {
    if y1 < y2 {
      DaysBeforeYearMonotone(y1 + 1, y2);
    } else if y2 < y1 {
      DaysBeforeYearMonotone(y2 + 1, y1);
    }
  }

  /** Python's week number is the one the standard defines, and no other. */
  lemma IsoCalendarIsThursdayRule(d: Date, y: int, w: int)
    requires ValidDate(d)
    ensures ThursdayRule(Ordinal(d), y, w) <==> (IsoCalendar(d).year == y && IsoCalendar(d).week == w)
  {
    var r := IsoCalendar(d);
    IsoCalendarWeek(d);
    if ThursdayRule(Ordinal(d), y, w) {
      ThursdayRuleUnique(Ordinal(d), y, w, r.year, r.week);
    }
  }

  lemma YearStart2025()
    ensures DaysBeforeYear(2025) == 739251
  {
    DaysBeforeYearClosedForm(2025);
  }

  lemma YearStart2026()
    ensures DaysBeforeYear(2026) == 739616
  {
    DaysBeforeYearClosedForm(2026);
  }

  lemma Week1Monday2025()
    ensures Week1Monday(2025) == 739250
  {
    YearStart2025();
  }

  lemma Week1Monday2026()
    ensures Week1Monday(2026) == 739614
  {
    YearStart2026();
  }

  /** 2026 begins on a Thursday, so its ISO week 1 runs from Monday
      2025-12-29 to Sunday 2026-01-04. */
  lemma Example2026Thursday()
    ensures Weekday(Ordinal(Date(2026, 1, 1))) == Thursday
  {
    YearStart2026();
  }

  /** Monday 2025-12-29 is the first day of ISO week 1 of 2026. */
  lemma Example2026Week1()
    ensures IsoCalendar(Date(2025, 12, 29)) == IsoDate(2026, 1, 1)
  {
    YearStart2025();
    Week1Monday2025();
    Week1Monday2026();
  }

  /** Monday 2026-01-05, the first Monday inside January 2026, opens
      week 2. */
  lemma Example2026Week2()
    ensures IsoCalendar(Date(2026, 1, 5)) == IsoDate(2026, 2, 1)
  {
    YearStart2026();
    Week1Monday2026();
  }
}

=== FILE: layout.dfy ===
/** Page geometry of the year planner (jahreskalender.py, lines 57-62,
    66, 73-74, 79, 94-95), in exact real arithmetic: twelve month columns
    across the usable width, and 33 rows down the usable height, two for
    the title and the month names and 31 for the days. */
module Layout {

  /** reportlab's units: 72 points to the inch, 2.54 cm to the inch. */
  const Inch: real := 72.0
  const Cm: real := Inch / 2.54

  /** A4 portrait, width by height (`reportlab.lib.pagesizes.A4`). */
  const A4: (real, real) := (21.0 * Cm, 29.7 * Cm)

  const Margin: real := 40.0
  const Columns: int := 12
  const Rows: int := 33
  const HeaderRows: int := 2

  datatype Point = Point(x: real, y: real)

  datatype Geometry = Geometry(
    width: real, height: real, margin: real,
    cellWidth: real, cellHeight: real, yStart: real)

  /** `landscape(size)`: the longer side becomes the width. */
  function Landscape(size: (real, real)): (r: (real, real))
    ensures r.0 >= r.1
    ensures (r.0 == size.0 && r.1 == size.1) || (r.0 == size.1 && r.1 == size.0)
  {
    if size.0 < size.1 then (size.1, size.0) else size
  }

  /** The grid for a page of the given size: columns and rows tile the
      area inside the margins exactly, and the day rows start two row
      heights below the top margin. */
  function GridFor(width: real, height: real): (g: Geometry)
    ensures g.width == width && g.height == height && g.margin == Margin
    ensures g.margin + (Columns as real) * g.cellWidth == g.width - g.margin
    ensures g.margin + (Rows as real) * g.cellHeight == g.height - g.margin
    ensures g.yStart == g.height - g.margin - (HeaderRows as real) * g.cellHeight
  {
    var cellWidth := (width - 2.0 * Margin) / 12.0;
    var cellHeight := (height - 2.0 * Margin) / 33.0;
    Geometry(width, height, Margin, cellWidth, cellHeight, height - Margin - 2.0 * cellHeight)
  }

  /** The page actually used: A4 in landscape. */
  function PageGrid(): (g: Geometry)
    ensures g.width > g.height > 0.0
    ensures g.cellWidth > 60.0 && g.cellHeight > 15.0
  {
    var page := Landscape(A4);
    GridFor(page.0, page.1)
  }

  /** `k` lengths `step` laid end to end from 0 (backwards for negative
      `k`): the offset of column or row `k` of the grid. The source
      multiplies, `k * step`, and `TimesIsProduct` shows this is the same
      value; the model adds step by step instead so that the cell
      positions stay free of nonlinear real arithmetic, which the verifier
      handles poorly. */
  function Times(k: int, step: real): real
    decreases if k >= 0 then k else -k
  {
    if k == 0 then 0.0
    else if k > 0 then Times(k - 1, step) + step
    else Times(k + 1, step) - step
  }

  lemma TimesStep(k: int, step: real)
    ensures Times(k + 1, step) == Times(k, step) + step
  {
  }

  /** Laying `k` lengths end to end is multiplying by `k`. */
  lemma {:induction false} TimesIsProduct(k: int, step: real)
    ensures Times(k, step) == (k as real) * step
    decreases if k >= 0 then k else -k
  {
    if k > 0 {
      TimesIsProduct(k - 1, step);
    } else if k < 0 {
      TimesIsProduct(k + 1, step);
    }
  }

  /** Offsets `i < j` on a lattice of pitch `step` are a step apart. */
  lemma {:induction false} TimesMonotone(i: int, j: int, step: real)
    requires i < j && step >= 0.0
    ensures Times(i, step) + step <= Times(j, step)
    decreases j - i
  {
    TimesStep(j - 1, step);
    if i + 1 < j {
      TimesMonotone(i, j - 1, step);
    }
  }

  /** Bottom-left corner of the cell of day `day` of month `month`: column
      `month - 1`, row `day` below the header rows. */
  function CellOrigin(g: Geometry, month: int, day: int): Point {
    Point(g.margin + Times(month - 1, g.cellWidth), g.yStart - Times(day, g.cellHeight))
  }

  /** The cell origin is the source's formula: x = margin + (month - 1) *
      cell_width and y = y_start - day * cell_height, whatever the weekday. */
  lemma CellOriginFormula(g: Geometry, month: int, day: int)
    ensures CellOrigin(g, month, day).x == g.margin + ((month - 1) as real) * g.cellWidth
    ensures CellOrigin(g, month, day).y == g.yStart - (day as real) * g.cellHeight
  {
    TimesIsProduct(month - 1, g.cellWidth);
    TimesIsProduct(day, g.cellHeight);
  }

  /** Where the title (the year) is centred: mid-page, on the top margin. */
  function TitleAnchor(g: Geometry): Point {
    Point(g.width / 2.0, g.height - g.margin)
  }

  /** Where the name of month `i + 1` is centred: half a margin below the
      title, over the middle of column `i`, which holds that month's days. */
  function MonthNameAnchor(g: Geometry, i: int): (p: Point)
    ensures p.x == CellOrigin(g, i + 1, 1).x + g.cellWidth / 2.0
  {
    Point(g.margin + Times(i, g.cellWidth) + g.cellWidth / 2.0, g.height - 1.5 * g.margin)
  }

  /** A grid whose cells have positive size: the page is larger than its
      margins. */
  predicate Proper(g: Geometry) {
    g.cellWidth > 0.0 && g.cellHeight > 0.0
  }

  /** Every day cell lies inside the margins and below the header rows; the
      twelfth column ends exactly on the right margin, the row of day 31
      exactly on the bottom margin, and the row of day 1 starts exactly
      below the two header rows. */
  lemma CellWithinMargins(g: Geometry, month: int, day: int)
    requires g == GridFor(g.width, g.height) && Proper(g)
    requires 1 <= month <= 12 && 1 <= day <= 31
    ensures g.margin <= CellOrigin(g, month, day).x
    ensures CellOrigin(g, month, day).x + g.cellWidth <= g.width - g.margin
    ensures CellOrigin(g, month, day).x + g.cellWidth == g.width - g.margin <==> month == 12
    ensures g.margin <= CellOrigin(g, month, day).y
    ensures CellOrigin(g, month, day).y == g.margin <==> day == 31
    ensures CellOrigin(g, month, day).y + g.cellHeight <= g.yStart
    ensures CellOrigin(g, month, day).y + g.cellHeight == g.yStart <==> day == 1
  {
    TimesIsProduct(12, g.cellWidth);
    TimesIsProduct(31, g.cellHeight);
    TimesStep(month - 1, g.cellWidth);
    TimesStep(0, g.cellHeight);
    if month > 1 {
      TimesMonotone(0, month - 1, g.cellWidth);
    }
    if month < 12 {
      TimesMonotone(month, 12, g.cellWidth);
    }
    if day > 1 {
      TimesMonotone(1, day, g.cellHeight);
    }
    if day < 31 {
      TimesMonotone(day, 31, g.cellHeight);
    }
  }

  /** Cells of different (month, day) pairs never overlap: they are at
      least a column apart horizontally or a row apart vertically. */
  lemma CellsDisjoint(g: Geometry, m1: int, d1: int, m2: int, d2: int)
    requires Proper(g)
    requires (m1, d1) != (m2, d2)
    ensures || CellOrigin(g, m1, d1).x + g.cellWidth <= CellOrigin(g, m2, d2).x
            || CellOrigin(g, m2, d2).x + g.cellWidth <= CellOrigin(g, m1, d1).x
            || CellOrigin(g, m1, d1).y + g.cellHeight <= CellOrigin(g, m2, d2).y
            || CellOrigin(g, m2, d2).y + g.cellHeight <= CellOrigin(g, m1, d1).y
  {
    if m1 < m2 {
      TimesMonotone(m1 - 1, m2 - 1, g.cellWidth);
    } else if m2 < m1 {
      TimesMonotone(m2 - 1, m1 - 1, g.cellWidth);
    } else if d1 < d2 {
      TimesMonotone(d1, d2, g.cellHeight);
    } else {
      TimesMonotone(d2, d1, g.cellHeight);
    }
  }

  /** On landscape A4 the month names sit inside the two header rows,
      below the title line and above the first day row. */
  lemma HeadersFitOnA4()
    ensures var g := PageGrid();
            && MonthNameAnchor(g, 0).y < TitleAnchor(g).y
            && g.yStart < MonthNameAnchor(g, 0).y
  {
  }
}

=== FILE: locales.dfy ===
/** Input resolution of `create_year_plan` (jahreskalender.py, lines
    11-54): the supported language selectors, the coercion of any other
    selector to English, the default output file name, and the locale
    fallback of `safe_set_locale`, where "the platform accepts this locale
    name" is the parameter `accepts` standing in for `locale.setlocale`. */
module Locales {
  import opened Wrappers
  import Decimal

  const SupportedLanguages: seq<string> := ["en", "de", "fr", "it", "es"]
  const DefaultLanguage: string := "en"

  /** An unsupported selector becomes English; a supported one is kept. */
  function CoerceLanguage(language: string): (r: string)
    ensures r in SupportedLanguages
    ensures language in SupportedLanguages ==> r == language
    ensures language !in SupportedLanguages ==> r == DefaultLanguage
  {
    if language in SupportedLanguages then language else DefaultLanguage
  }

  /** Coercing twice is coercing once. */
  lemma CoerceIdempotent(language: string)
    ensures CoerceLanguage(CoerceLanguage(language)) == CoerceLanguage(language)
  {
  }

  /** The locale names tried for each language, in order; none for a
      language outside the supported five. */
  function LocaleVariants(language: string): (vs: seq<string>)
    ensures vs == [] <==> language !in SupportedLanguages
  {
    if language == "en" then ["en_US.UTF-8", "en_US.utf8", "en_US", "C"]
    else if language == "de" then ["de_DE.UTF-8", "de_DE.utf8", "de_DE", "deu_DEU", "C"]
    else if language == "fr" then ["fr_FR.UTF-8", "fr_FR.utf8", "fr_FR", "fr_FR@euro", "fr_FR.ISO8859-1", "fr"]
    else if language == "it" then ["it_IT.UTF-8", "it_IT.utf8", "it_IT", "ita_ITA", "it"]
    else if language == "es" then ["es_ES.UTF-8", "es_ES.utf8", "es_ES", "es_ES@euro", "es_ES.ISO8859-1", "es"]
    else []
  }

  /** The first name in `vs` the platform accepts, or None when it rejects
      them all. */
  function FirstAccepted(vs: seq<string>, accepts: string -> bool): (r: Option<string>)
    ensures r.None? <==> forall i :: 0 <= i < |vs| ==> !accepts(vs[i])
    ensures r.Some? ==> exists k :: 0 <= k < |vs| && vs[k] == r.value && accepts(vs[k])
                                  && forall j :: 0 <= j < k ==> !accepts(vs[j])
  {
    if vs == [] then None
    else if accepts(vs[0]) then Some(vs[0])
    else FirstAccepted(vs[1..], accepts)
  }

  /** `safe_set_locale(language)`: the locale name that took effect, or
      None. */
  function SafeSetLocale(language: string, accepts: string -> bool): (r: Option<string>)
    ensures r.Some? ==> r.value in LocaleVariants(language) && accepts(r.value)
  {
    FirstAccepted(LocaleVariants(language), accepts)
  }

  /** The chosen locale is the earliest accepted one: every variant listed
      before it was rejected. */
  lemma SafeSetLocaleFirstMatch(language: string, accepts: string -> bool, k: int)
    requires 0 <= k < |LocaleVariants(language)|
    requires accepts(LocaleVariants(language)[k])
    requires forall j :: 0 <= j < k ==> !accepts(LocaleVariants(language)[j])
    ensures SafeSetLocale(language, accepts) == Some(LocaleVariants(language)[k])
  {
    var vs := LocaleVariants(language);
    var r := SafeSetLocale(language, accepts);
    var k' :| 0 <= k' < |vs| && vs[k'] == r.value && accepts(vs[k'])
              && forall j :: 0 <= j < k' ==> !accepts(vs[j]);
    assert k' == k;
  }

  /** No locale is set when the platform rejects every variant, and never
      for a language outside the supported five. */
  lemma SafeSetLocaleNone(language: string, accepts: string -> bool)
    ensures SafeSetLocale(language, accepts).None?
        <==> forall v :: v in LocaleVariants(language) ==> !accepts(v)
    ensures language !in SupportedLanguages ==> SafeSetLocale(language, accepts).None?
  {
  }

  /** English and German fall back to the "C" locale, so they resolve
      whenever the platform accepts "C". */
  lemma CLocaleFallback(language: string, accepts: string -> bool)
    requires language == "en" || language == "de"
    requires accepts("C")
    ensures SafeSetLocale(language, accepts).Some?
  {
    var vs := LocaleVariants(language);
    assert vs[|vs| - 1] == "C";
  }

  /** The default output name `year_plan_<year>_<language>.pdf`. */
  function DefaultFilename(year: int, language: string): string {
    "year_plan_" + Decimal.IntToString(year) + "_" + language + ".pdf"
  }

  /** Every supported selector is a two-letter code. */
  lemma TwoLetterCodes(language: string)
    requires language in SupportedLanguages
    ensures |language| == 2
  {
  }

  /** Names built from equally long language codes give back their year
      and code. */
  lemma FilenameParts(y1: int, l1: string, y2: int, l2: string)
    requires |l1| == |l2|
    requires DefaultFilename(y1, l1) == DefaultFilename(y2, l2)
    ensures y1 == y2 && l1 == l2
  {
    var s1, s2 := Decimal.IntToString(y1), Decimal.IntToString(y2);
    var f := DefaultFilename(y1, l1);
    assert |s1| == |s2|;
    assert s1 == f[10..10 + |s1|];
    assert s2 == f[10..10 + |s2|];
    assert l1 == f[11 + |s1|..11 + |s1| + |l1|];
    assert l2 == f[11 + |s2|..11 + |s2| + |l2|];
    Decimal.IntToStringInjective(y1, y2);
  }

  /** The default name tells the year and the (coerced) language apart:
      two runs that differ in either never default to the same file. */
  lemma DefaultFilenameInjective(y1: int, l1: string, y2: int, l2: string)
    requires l1 in SupportedLanguages && l2 in SupportedLanguages
    requires DefaultFilename(y1, l1) == DefaultFilename(y2, l2)
    ensures y1 == y2 && l1 == l2
  {
    TwoLetterCodes(l1);
    TwoLetterCodes(l2);
    FilenameParts(y1, l1, y2, l2);
  }

  /** Input resolution of `create_year_plan` before any drawing. */
  datatype Resolved = Resolved(
    year: int, language: string, locale: Option<string>,
    warning: bool, filename: string)

  /** Resolve the optional year (the clock's year plus one when absent),
      the language (coerced), the locale (first accepted variant, with a
      warning when none is) and the file name (defaulted from the resolved
      year and language when absent). */
  function Resolve(year: Option<int>, language: string, filename: Option<string>,
                   clockYear: int, accepts: string -> bool): (r: Resolved)
    ensures year.None? ==> r.year == clockYear + 1
    ensures year.Some? ==> r.year == year.value
    ensures r.language in SupportedLanguages
    ensures language !in SupportedLanguages ==> r.language == DefaultLanguage
    ensures language in SupportedLanguages ==> r.language == language
    ensures r.locale == SafeSetLocale(r.language, accepts)
    ensures r.warning <==> r.locale.None?
    ensures r.warning <==> forall v :: v in LocaleVariants(r.language) ==> !accepts(v)
    ensures r.locale.Some? ==> r.locale.value in LocaleVariants(r.language) && accepts(r.locale.value)
    ensures filename.Some? ==> r.filename == filename.value
    ensures filename.None? ==> r.filename == DefaultFilename(r.year, r.language)
  {
    var y := year.GetOr(clockYear + 1);
    var lang := CoerceLanguage(language);
    var used := SafeSetLocale(lang, accepts);
    SafeSetLocaleNone(lang, accepts);
    Resolved(y, lang, used, used.None?, filename.GetOr(DefaultFilename(y, lang)))
  }

  /** An unsupported selector resolves exactly as English does. */
  lemma UnsupportedActsAsEnglish(year: Option<int>, language: string, filename: Option<string>,
                                 clockYear: int, accepts: string -> bool)
    requires language !in SupportedLanguages
    ensures Resolve(year, language, filename, clockYear, accepts)
         == Resolve(year, DefaultLanguage, filename, clockYear, accepts)
  {
  }
}

=== FILE: monthiter.dfy ===
/** Month iteration as the year planner uses it: `calendar.Calendar(
    firstweekday=0).itermonthdates(year, month)` pads the month with days
    of the neighbouring months to whole Monday-to-Sunday weeks, and the
    planner's inner loop skips every date whose month is not the one being
    drawn (jahreskalender.py, lines 77 and 82-86). */
module MonthIteration {
  import opened Wrappers
  import opened Gregorian

  /** Weeks start on Monday (`Calendar(firstweekday=0)`). */
  const FirstWeekday: int := 0

  /** The exception `datetime.date` raises for a year outside 1..9999:
      `ValueError`, or `OverflowError` once the year does not fit a C
      `int`. The planner stops either way, so one value stands for both. */
  datatype DateError = YearOutOfRange

  /** `days_before` of `itermonthdays3`: how many days of the previous
      month precede the 1st in its Monday-first week. */
  function DaysBefore(y: int, m: int): (n: int)
    requires 1 <= m <= 12
    ensures 0 <= n < 7
    ensures Weekday(Ordinal(Date(y, m, 1)) - n) == 0
  {
    var first := Ordinal(Date(y, m, 1));
    MondayOf(first);
    (Weekday(first) - FirstWeekday) % 7
  }

  /** The leading and trailing padding around `days` days complete a
      whole number of weeks, for a month starting on weekday `w`. */
  lemma CompleteWeeks(w: int, days: int)
    requires 0 <= w < 7
    ensures ((w - FirstWeekday) % 7 + days + (FirstWeekday - w - days) % 7) % 7 == 0
  {
  }

  /** `days_after` of `itermonthdays3`: how many days of the next month
      complete the last week of the month. */
  function DaysAfter(y: int, m: int): (n: int)
    requires 1 <= m <= 12
    ensures 0 <= n < 7
    ensures (DaysBefore(y, m) + DaysInMonth(y, m) + n) % 7 == 0
  {
    var w := Weekday(Ordinal(Date(y, m, 1)));
    CompleteWeeks(w, DaysInMonth(y, m));
    (FirstWeekday - w - DaysInMonth(y, m)) % 7
  }

  /** The days of month `m` of year `y`, 1 .. DaysInMonth(y, m). */
  function MonthDays(y: int, m: int): (r: seq<Date>)
    requires 1 <= m <= 12
    ensures |r| == DaysInMonth(y, m)
    ensures forall i :: 0 <= i < |r| ==> r[i] == Date(y, m, i + 1)
  {
    seq(DaysInMonth(y, m), i => Date(y, m, i + 1))
  }

  /** The last DaysBefore(y, m) days of the previous month. */
  function LeadingDays(y: int, m: int): (r: seq<Date>)
    requires 1 <= m <= 12
  {
    var prev := PrevMonth(y, m);
    var end := DaysInMonth(prev.0, prev.1) + 1;
    var before := DaysBefore(y, m);
    seq(before, i => Date(prev.0, prev.1, end - before + i))
  }

  /** The first DaysAfter(y, m) days of the next month. */
  function TrailingDays(y: int, m: int): (r: seq<Date>)
    requires 1 <= m <= 12
  {
    var next := NextMonth(y, m);
    seq(DaysAfter(y, m), i => Date(next.0, next.1, i + 1))
  }

  /** A run of valid dates on consecutive days. */
  predicate ConsecutiveDays(r: seq<Date>) {
    && (forall i :: 0 <= i < |r| ==> ValidDate(r[i]))
    && (forall i :: 0 < i < |r| ==> Ordinal(r[i]) == Ordinal(r[0]) + i)
  }

  /** The (year, month, day) triples of `itermonthdays3(y, m)`, which
      `itermonthdates` turns into dates: the consecutive days from the
      Monday on or before the 1st to the Sunday on or after the last day
      of the month. */
  function PaddedMonth(y: int, m: int): seq<Date>
    requires 1 <= m <= 12
  {
    LeadingDays(y, m) + MonthDays(y, m) + TrailingDays(y, m)
  }

  /** The padded run is whole weeks of consecutive valid dates, from the
      Monday on or before the 1st to the Sunday on or after the last day. */
  lemma PaddedMonthWeeks(y: int, m: int)
    requires 1 <= m <= 12
    ensures var r := PaddedMonth(y, m);
            && |r| % 7 == 0 && 28 <= |r| <= 42
            && ConsecutiveDays(r)
            && Weekday(Ordinal(r[0])) == 0
            && Ordinal(r[0]) <= Ordinal(Date(y, m, 1)) < Ordinal(r[0]) + 7
            && Ordinal(r[|r| - 1]) - 7 < Ordinal(Date(y, m, DaysInMonth(y, m))) <= Ordinal(r[|r| - 1])
  {
    PaddedMonthShape(y, m);
  }

  lemma PaddedMonthShape(y: int, m: int)
    requires 1 <= m <= 12
    ensures var r := LeadingDays(y, m) + MonthDays(y, m) + TrailingDays(y, m);
            && |r| % 7 == 0 && 28 <= |r| <= 42
            && ConsecutiveDays(r)
            && Ordinal(r[0]) == Ordinal(Date(y, m, 1)) - DaysBefore(y, m)
  {
    var a, b, c := LeadingDays(y, m), MonthDays(y, m), TrailingDays(y, m);
    var r := a + b + c;
    var prev := PrevMonth(y, m);
    NextMonthContinues(prev.0, prev.1);
    NextMonthContinues(y, m);
    var start := Ordinal(Date(y, m, 1)) - |a|;
    forall i | 0 <= i < |r|
      ensures ValidDate(r[i]) && Ordinal(r[i]) == start + i
    {
      if i < |a| {
        assert r[i] == a[i];
      } else if i < |a| + |b| {
        assert r[i] == b[i - |a|];
      } else {
        assert r[i] == c[i - |a| - |b|];
      }
    }
  }

  /** The inner loop's filter: the dates of `ds` whose month is `m`, in
      their original order. */
  function KeepMonth(ds: seq<Date>, m: int): (r: seq<Date>)
    ensures |r| <= |ds|
    ensures forall i :: 0 <= i < |r| ==> r[i].month == m && r[i] in ds
  {
    if ds == [] then []
    else (if ds[0].month == m then [ds[0]] else []) + KeepMonth(ds[1..], m)
  }

  /** The filter drops nothing of month `m`: each date keeps its number
      of occurrences when its month is `m` and loses all of them otherwise. */
  lemma {:induction false} KeepMonthCounts(ds: seq<Date>, m: int, d: Date)
    ensures multiset(KeepMonth(ds, m))[d] == if d.month == m then multiset(ds)[d] else 0
  {
    if ds != [] {
      KeepMonthCounts(ds[1..], m, d);
      assert ds == [ds[0]] + ds[1..];
    }
  }

  lemma {:induction false} KeepMonthConcat(a: seq<Date>, b: seq<Date>, m: int)
    ensures KeepMonth(a + b, m) == KeepMonth(a, m) + KeepMonth(b, m)
  {
    if a == [] {
      assert a + b == b;
    } else {
      assert (a + b)[1..] == a[1..] + b;
      KeepMonthConcat(a[1..], b, m);
    }
  }

  lemma {:induction false} KeepMonthAll(a: seq<Date>, m: int)
    requires forall i :: 0 <= i < |a| ==> a[i].month == m
    ensures KeepMonth(a, m) == a
  {
    if a != [] {
      KeepMonthAll(a[1..], m);
    }
  }

  lemma {:induction false} KeepMonthNone(a: seq<Date>, m: int)
    requires forall i :: 0 <= i < |a| ==> a[i].month != m
    ensures KeepMonth(a, m) == []
  {
    if a != [] {
      KeepMonthNone(a[1..], m);
    }
  }

  /** The padding days belong to the neighbouring months, never to `m`. */
  lemma PaddingFilteredOut(y: int, m: int)
    requires 1 <= m <= 12
    ensures KeepMonth(LeadingDays(y, m), m) == []
    ensures KeepMonth(TrailingDays(y, m), m) == []
  {
    KeepMonthNone(LeadingDays(y, m), m);
    KeepMonthNone(TrailingDays(y, m), m);
  }

  /** Filtering the padded run of month `m` keeps exactly the days of `m`,
      each once, in ascending order 1 .. DaysInMonth(y, m). */
  lemma MonthFilterExact(y: int, m: int)
    requires 1 <= m <= 12
    ensures KeepMonth(PaddedMonth(y, m), m) == MonthDays(y, m)
  {
    var a, b, c := LeadingDays(y, m), MonthDays(y, m), TrailingDays(y, m);
    KeepMonthConcat(a + b, c, m);
    KeepMonthConcat(a, b, m);
    PaddingFilteredOut(y, m);
    KeepMonthAll(b, m);
    assert KeepMonth(a + b + c, m) == [] + b + [];
  }

  /** Which months have a representable padded run: every month of years
      1..9998 and January to November of 9999. December 9999 ends on a
      Friday, so its padding reaches into year 10000, and in any other year
      the month's own 1st is already out of range. */
  lemma PaddingRepresentable(y: int, m: int)
    requires 1 <= m <= 12
    ensures (forall d :: d in PaddedMonth(y, m) ==> InDatetimeRange(d))
        <==> MinYear <= y <= MaxYear && !(y == MaxYear && m == 12)
  {
    var p := PaddedMonth(y, m);
    if y < MinYear || y > MaxYear {
      OwnMonthInPadding(y, m);
      assert Date(y, m, 1) in p;
    } else if y == MaxYear && m == 12 {
      December9999Overflows();
      assert Date(MaxYear + 1, 1, 2) in p;
    } else {
      PaddingInRange(y, m);
    }
  }

  /** `itermonthdates(y, m)` (Python 3.7 and later): the padded run as
      `datetime.date` values, or the exception (`ValueError`, or
      `OverflowError` for a year beyond a C `int`) raised by the first date
      outside years 1..9999. Python can iterate every month of years
      1..9998 and January to November of 9999, and no other. */
  function IterMonthDates(y: int, m: int): (r: Result<seq<Date>, DateError>)
    requires 1 <= m <= 12
    ensures r.Success? <==> MinYear <= y <= MaxYear && !(y == MaxYear && m == 12)
    ensures r.Success? ==> r.value == PaddedMonth(y, m)
  {
    PaddingRepresentable(y, m);
    var p := PaddedMonth(y, m);
    if forall d | d in p :: InDatetimeRange(d) then Success(p)
    else Failure(YearOutOfRange)
  }

  lemma OwnMonthInPadding(y: int, m: int)
    requires 1 <= m <= 12
    ensures PaddedMonth(y, m)[DaysBefore(y, m)] == Date(y, m, 1)
  {
    assert PaddedMonth(y, m) == LeadingDays(y, m) + MonthDays(y, m) + TrailingDays(y, m);
  }

  lemma YearStart9999()
    ensures DaysBeforeYear(MaxYear) == 3651694
  {
    DaysBeforeYearClosedForm(MaxYear);
  }

  /** 9999-12-31 is a Friday: the last week of December 9999 needs
      Saturday and Sunday of January 10000. */
  lemma December9999Overflows()
    ensures DaysAfter(MaxYear, 12) == 2
    ensures PaddedMonth(MaxYear, 12)[|PaddedMonth(MaxYear, 12)| - 1] == Date(MaxYear + 1, 1, 2)
  {
    YearStart9999();
    assert Weekday(Ordinal(Date(MaxYear, 12, 1))) == 2;
    var a, b, c := LeadingDays(MaxYear, 12), MonthDays(MaxYear, 12), TrailingDays(MaxYear, 12);
    assert |c| == 2 && c[1] == Date(MaxYear + 1, 1, 2);
    assert PaddedMonth(MaxYear, 12) == a + b + c;
  }

  /** 0001-01-01 is a Monday, so January of year 1 needs no padding from
      year 0. */
  lemma January1NoPadding()
    ensures DaysBefore(MinYear, 1) == 0
  {
  }

  lemma LeadingInRange(y: int, m: int)
    requires 1 <= m <= 12
    requires MinYear <= y <= MaxYear
    ensures forall d :: d in LeadingDays(y, m) ==> InDatetimeRange(d)
  {
    if y == MinYear && m == 1 {
      January1NoPadding();
    }
  }

  lemma TrailingInRange(y: int, m: int)
    requires 1 <= m <= 12
    requires MinYear <= y <= MaxYear && !(y == MaxYear && m == 12)
    ensures forall d :: d in TrailingDays(y, m) ==> InDatetimeRange(d)
  {
  }

  lemma PaddingInRange(y: int, m: int)
    requires 1 <= m <= 12
    requires MinYear <= y <= MaxYear && !(y == MaxYear && m == 12)
    ensures forall d :: d in PaddedMonth(y, m) ==> InDatetimeRange(d)
  {
    LeadingInRange(y, m);
    TrailingInRange(y, m);
    assert forall d :: d in MonthDays(y, m) ==> InDatetimeRange(d);
    assert PaddedMonth(y, m) == LeadingDays(y, m) + MonthDays(y, m) + TrailingDays(y, m);
  }
}

=== FILE: wrappers.dfy ===
/** The planner's two kinds of partial answer: `Option` for Python's
    value-or-`None` (an optional year or file name, the locale that
    `safe_set_locale` may fail to set), and `Result` for a computation
    that either yields its value or stops with the exception it raises;
    `Result` supports Dafny's `:-` so that an exception ends the run. */
module Wrappers {

  datatype Option<+T> = None | Some(value: T) {

    /** The value held by Some, or `default` for None (Python's `x if x is not None else d`). */
    function GetOr(default: T): T {
      match this
      case Some(v) => v
      case None => default
    }
  }

  datatype Result<+R, +E> = Success(value: R) | Failure(error: E) {

    predicate IsFailure() {
      Failure?
    }

    function PropagateFailure<U>(): Result<U, E>
      requires Failure?
    {
      Failure(error)
    }

    function Extract(): R
      requires Success?
    {
      value
    }
  }
}

=== FILE: yearplan.dfy ===
/** The year planner itself, `create_year_plan` (jahreskalender.py, lines
    41-119), as a pure function from its inputs to the page it draws:
    resolved inputs, grid, title, month-name positions and one cell record
    per day, together with the drawing commands each cell issues. The
    drawing surface, the clock and `setlocale` are parameters or records;
    nothing is written. */
module YearPlan {
  import opened Wrappers
  import opened Gregorian
  import opened IsoWeek
  import opened MonthIteration
  import opened Layout
  import Locales
  import Decimal

  /** Weekday indices the planner tests (`date.weekday()`, Monday = 0). */
  const Monday: int := 0
  const Saturday: int := 5

  /** One day of the grid: where it is, whether it is a weekend day (grey
      fill, bold label), and the ISO week number shown on Mondays. */
  datatype Cell = Cell(
    month: int, day: int, weekday: int,
    shaded: bool, bold: bool, weekLabel: Option<int>,
    origin: Point)

  /** The cell drawn for date `d` (lines 88-95, 98, 107, 114). */
  function CellOf(g: Geometry, d: Date): (c: Cell)
    requires ValidDate(d)
    ensures c.month == d.month && c.day == d.day
    ensures c.weekday == Weekday(Ordinal(d))
    ensures c.shaded <==> (c.weekday == 5 || c.weekday == 6)
    ensures c.bold <==> c.shaded
    ensures c.weekLabel.Some? <==> c.weekday == Monday
    ensures c.weekLabel.Some? ==> HasIsoWeek(Ordinal(d), c.weekLabel.value)
    ensures c.origin == CellOrigin(g, d.month, d.day)
  {
    var iso := IsoCalendar(d);
    IsoCalendarWeek(d);
    var weekday := Weekday(Ordinal(d));
    var weekend := weekday >= Saturday;
    Cell(d.month, d.day, weekday, weekend, weekend,
         if weekday == Monday then Some(iso.week) else None,
         CellOrigin(g, d.month, d.day))
  }

  /** The dates the loop draws for month `m`: the padded run of
      `itermonthdates`, less the days of neighbouring months (lines 82-86). */
  function MonthDates(y: int, m: int): seq<Date>
    requires 1 <= m <= 12
  {
    KeepMonth(PaddedMonth(y, m), m)
  }

  /** The dates drawn for months `m` .. 12, month after month (line 81). */
  function DatesFrom(y: int, m: int): seq<Date>
    requires 1 <= m <= 13
    decreases 13 - m
  {
    if m == 13 then [] else MonthDates(y, m) + DatesFrom(y, m + 1)
  }

  /** Reference definition: the days of months `m` .. 12 of year `y`,
      written down month by month without any padding. */
  function CalendarFrom(y: int, m: int): (ds: seq<Date>)
    requires 1 <= m <= 13
    ensures forall i :: 0 <= i < |ds| ==> ds[i].year == y && m <= ds[i].month && ValidDate(ds[i])
    decreases 13 - m
  {
    if m == 13 then [] else MonthDays(y, m) + CalendarFrom(y, m + 1)
  }

  /** The loop's filtered padded runs are exactly the calendar's days. */
  lemma {:induction false} DatesFromCalendar(y: int, m: int)
    requires 1 <= m <= 13
    ensures DatesFrom(y, m) == CalendarFrom(y, m)
    decreases 13 - m
  {
    if m < 13 {
      MonthFilterExact(y, m);
      DatesFromCalendar(y, m + 1);
    }
  }

  /** Strictly earlier within one year, by (month, day). */
  predicate DrawnBefore(a: Date, b: Date) {
    a.month < b.month || (a.month == b.month && a.day < b.day)
  }

  /** Months `m` .. 12 hold the days of the year after those of the
      months before `m`. */
  lemma {:induction false} CalendarFromLength(y: int, m: int)
    requires 1 <= m <= 13
    ensures |CalendarFrom(y, m)| == if m == 13 then 0 else DaysInYear(y) - DaysBeforeMonth(y, m)
    decreases 13 - m
  {
    if m < 13 {
      CalendarFromLength(y, m + 1);
      if m < 12 {
        DaysBeforeNextMonth(y, m);
      }
    }
  }

  /** Months `m` .. 12 come in calendar order. */
  lemma {:induction false} CalendarFromOrdered(y: int, m: int)
    requires 1 <= m <= 13
    ensures forall i, j :: 0 <= i < j < |CalendarFrom(y, m)| ==>
              DrawnBefore(CalendarFrom(y, m)[i], CalendarFrom(y, m)[j])
    decreases 13 - m
  {
    if m < 13 {
      CalendarFromOrdered(y, m + 1);
      var head, tail := MonthDays(y, m), CalendarFrom(y, m + 1);
      var ds := head + tail;
      assert CalendarFrom(y, m) == ds;
      forall i, j | 0 <= i < j < |ds|
        ensures DrawnBefore(ds[i], ds[j])
      {
        if j < |head| {
          assert ds[i] == head[i] && ds[j] == head[j];
        } else if i < |head| {
          assert ds[i] == head[i] && ds[j] == tail[j - |head|];
        } else {
          var i', j' := i - |head|, j - |head|;
          assert 0 <= i' < j' < |tail|;
          assert DrawnBefore(tail[i'], tail[j']);
          assert ds[i] == tail[i'] && ds[j] == tail[j'];
        }
      }
    }
  }

  /** Every date of year `y` in months `m` .. 12 is among them. */
  lemma {:induction false} CalendarFromCovers(y: int, m: int, d: Date)
    requires 1 <= m <= 13
    requires ValidDate(d) && d.year == y && m <= d.month
    ensures d in CalendarFrom(y, m)
    decreases 13 - m
  {
    var head := MonthDays(y, m);
    if d.month == m {
      assert head[d.day - 1] == d;
      assert CalendarFrom(y, m)[d.day - 1] == d;
    } else {
      CalendarFromCovers(y, m + 1, d);
    }
  }

  /** The whole year (lines 81-86): every date of year `y` exactly once, in
      calendar order, 365 or 366 of them, and nothing else. */
  lemma YearDatesExact(y: int)
    ensures var ds := DatesFrom(y, 1);
            && |ds| == DaysInYear(y)
            && (forall i :: 0 <= i < |ds| ==> ds[i].year == y && ValidDate(ds[i]))
            && (forall d: Date :: d.year == y && ValidDate(d) ==> d in ds)
            && (forall i, j :: 0 <= i < j < |ds| ==> ds[i] != ds[j])
  {
    DatesFromCalendar(y, 1);
    CalendarFromLength(y, 1);
    CalendarFromOrdered(y, 1);
    var ds := CalendarFrom(y, 1);
    forall d: Date | d.year == y && ValidDate(d)
      ensures d in ds
    {
      CalendarFromCovers(y, 1, d);
    }
    forall i, j | 0 <= i < j < |ds|
      ensures ds[i] != ds[j]
    {
      assert DrawnBefore(ds[i], ds[j]);
    }
  }

  /** The dates of the day grid, or the error `datetime.date` raises when a
      month's padded run leaves years 1..9999. */
  function YearDates(y: int): (r: Result<seq<Date>, DateError>)
    ensures r.Success? ==> r.value == CalendarFrom(y, 1)
  {
    if forall m | 1 <= m <= 12 :: IterMonthDates(y, m).Success? then
      DatesFromCalendar(y, 1);
      Success(DatesFrom(y, 1))
    else Failure(YearOutOfRange)
  }

  /** The planner draws years 1 to 9998 and fails for every other year. */
  lemma YearDatesFails(y: int)
    ensures YearDates(y).Failure? <==> (y < MinYear || y >= MaxYear)
  {
    if MinYear <= y < MaxYear {
      assert forall m | 1 <= m <= 12 :: IterMonthDates(y, m).Success?;
    } else {
      assert IterMonthDates(y, 12).Failure?;
    }
  }

  /** One cell per date, in drawing order. */
  function CellsOf(g: Geometry, ds: seq<Date>): (cs: seq<Cell>)
    requires forall i :: 0 <= i < |ds| ==> ValidDate(ds[i])
    ensures |cs| == |ds|
  {
    seq(|ds|, i requires 0 <= i < |ds| => CellOf(g, ds[i]))
  }

  /** Reference day grid of year `y`: the cells of its dates, in
      calendar order. */
  function CalendarCells(g: Geometry, y: int): (cs: seq<Cell>)
    ensures |cs| == DaysInYear(y)
  {
    CalendarFromLength(y, 1);
    CellsOf(g, CalendarFrom(y, 1))
  }

  datatype Font = Helvetica | HelveticaBold
  datatype Color = LightGrey | Black

  /** The canvas calls a cell issues, in order. The weekday abbreviation of
      the day label comes from the locale and is kept as the weekday index. */
  datatype DrawOp =
    | SetFillColor(color: Color)
    | Rect(x: real, y: real, w: real, h: real, fill: bool, stroke: bool)
    | SetFont(font: Font, size: int)
    | DrawDayLabel(x: real, y: real, weekday: int, dayText: string)
    | DrawRightString(x: real, y: real, text: string)

  /** Lines 97-116 for one cell: grey fill on weekends (restoring black),
      the border, the day label in the weekday's font, and on Mondays the
      week number right-aligned 60 points from the cell's left edge. */
  function CellOps(g: Geometry, c: Cell): seq<DrawOp> {
    var x, y := c.origin.x, c.origin.y;
    var w, h := g.cellWidth, g.cellHeight;
    (if c.shaded then [SetFillColor(LightGrey), Rect(x, y, w, h, true, false), SetFillColor(Black)] else [])
    + [Rect(x, y, w, h, false, true)]
    + [SetFont(if c.bold then HelveticaBold else Helvetica, 8)]
    + [DrawDayLabel(x + 4.0, y + 4.0, c.weekday, Decimal.IntToString(c.day))]
    + (match c.weekLabel
       case Some(week) => [SetFont(HelveticaBold, 9), DrawRightString(x + 60.0, y + 4.0, Decimal.IntToString(week))]
       case None => [])
  }

  /** Every cell gets exactly one border; it gets a grey fill, drawn before
      the border, exactly when it is a weekend cell; its label is bold
      exactly then; and a week number is drawn exactly for Monday cells. */
  lemma CellOpsShape(g: Geometry, c: Cell)
    ensures var ops := CellOps(g, c);
            var border := Rect(c.origin.x, c.origin.y, g.cellWidth, g.cellHeight, false, true);
            && (exists i :: 0 <= i < |ops| && ops[i] == border)
            && (forall i, j :: 0 <= i < j < |ops| && ops[i].Rect? && !ops[i].fill ==> !ops[j].Rect?)
            && (c.shaded <==> exists i :: 0 <= i < |ops| && ops[i].Rect? && ops[i].fill)
            && (forall i, j :: 0 <= i < |ops| && 0 <= j < |ops| && ops[i].Rect? && ops[i].fill && ops[j] == border ==> i < j)
            && (c.bold <==> SetFont(HelveticaBold, 8) in ops)
            && (c.weekLabel.Some? <==> exists i :: 0 <= i < |ops| && ops[i].DrawRightString?)
  {
    var ops := CellOps(g, c);
    var k := if c.shaded then 3 else 0;
    assert ops[k] == Rect(c.origin.x, c.origin.y, g.cellWidth, g.cellHeight, false, true);
    if c.shaded {
      assert ops[1].Rect? && ops[1].fill;
    }
    if c.weekLabel.Some? {
      assert ops[k + 4].DrawRightString?;
    }
    assert ops[k + 1] == SetFont(if c.bold then HelveticaBold else Helvetica, 8);
  }

  /** The grey fill of a weekend cell covers exactly the cell and is drawn
      between switching to light grey and back to black. */
  lemma CellOpsContent(g: Geometry, c: Cell)
    ensures var ops := CellOps(g, c);
            forall i :: 0 <= i < |ops| && ops[i].Rect? && ops[i].fill ==>
              && ops[i] == Rect(c.origin.x, c.origin.y, g.cellWidth, g.cellHeight, true, false)
              && 0 < i < |ops| - 1
              && ops[i - 1] == SetFillColor(LightGrey) && ops[i + 1] == SetFillColor(Black)
  {
    var ops := CellOps(g, c);
    var k := if c.shaded then 3 else 0;
    assert forall i :: k <= i < |ops| ==> !ops[i].Rect? || !ops[i].fill;
  }

  /** A right-aligned string is only ever the cell's week number, 60 points
      from its left edge, drawn right after switching to bold size 9. */
  lemma WeekNumberLabel(g: Geometry, c: Cell)
    ensures var ops := CellOps(g, c);
            forall i :: 0 <= i < |ops| && ops[i].DrawRightString? ==>
              && c.weekLabel.Some?
              && ops[i] == DrawRightString(c.origin.x + 60.0, c.origin.y + 4.0, Decimal.IntToString(c.weekLabel.value))
              && 0 < i && ops[i - 1] == SetFont(HelveticaBold, 9)
  {
    var ops := CellOps(g, c);
    var k := if c.shaded then 3 else 0;
    assert forall i :: 0 <= i < k + 3 ==> !ops[i].DrawRightString?;
  }

  /** The day label is drawn once, 4 points in from the cell's corner, with
      the weekday and the day number, right after setting its own size-8
      font: bold on weekends and regular otherwise, so no font carries over
      from the previous cell. */
  lemma CellLabelFont(g: Geometry, c: Cell)
    ensures var ops := CellOps(g, c);
            var x, y := c.origin.x, c.origin.y;
            && (exists i :: 0 < i < |ops| && ops[i].DrawDayLabel?)
            && (forall i :: 0 <= i < |ops| && ops[i].DrawDayLabel? ==>
                  && ops[i] == DrawDayLabel(x + 4.0, y + 4.0, c.weekday, Decimal.IntToString(c.day))
                  && 0 < i && ops[i - 1] == SetFont(if c.bold then HelveticaBold else Helvetica, 8))
  {
    var ops := CellOps(g, c);
    var k := if c.shaded then 3 else 0;
    assert ops[k + 1] == SetFont(if c.bold then HelveticaBold else Helvetica, 8);
    assert ops[k + 2] == DrawDayLabel(c.origin.x + 4.0, c.origin.y + 4.0, c.weekday, Decimal.IntToString(c.day));
  }

  /** Everything `create_year_plan` decides and draws. */
  datatype Plan = Plan(
    inputs: Locales.Resolved,
    grid: Geometry,
    title: string,
    titleAnchor: Point,
    monthNameAnchors: seq<Point>,
    cells: seq<Cell>)

  /** `create_year_plan(year, language, filename)` with the clock's year
      and the platform's locale support as parameters: resolve the inputs,
      lay out landscape A4, and draw the title, the twelve month names and
      the day grid. A run succeeds exactly for resolved years 1..9998 (the
      given year, or the clock's year plus one); for every other year
      `datetime.date` raises. A successful run draws the year's day grid. */
  function CreateYearPlan(year: Option<int>, language: string, filename: Option<string>,
                          clockYear: int, accepts: string -> bool): (r: Result<Plan, DateError>)
    ensures r.Success? <==> MinYear <= year.GetOr(clockYear + 1) < MaxYear
    ensures r.Success? ==> r.value.inputs == Locales.Resolve(year, language, filename, clockYear, accepts)
    ensures r.Success? ==> r.value.grid == PageGrid()
    ensures r.Success? ==> r.value.cells == CalendarCells(r.value.grid, r.value.inputs.year)
  {
    var inputs := Locales.Resolve(year, language, filename, clockYear, accepts);
    var g := PageGrid();
    YearDatesFails(inputs.year);
    var ds :- YearDates(inputs.year);
    Success(Plan(inputs, g, Decimal.IntToString(inputs.year), TitleAnchor(g),
                 seq(12, i => MonthNameAnchor(g, i)), CellsOf(g, ds)))
  }

  /** A run for a year in 1..9998 succeeds, titles the page with the year
      centred on the top margin, centres each month name over its column and draws the cells of the
      year's dates, one per day. */
  lemma CreateYearPlanPage(year: Option<int>, language: string, filename: Option<string>,
                           clockYear: int, accepts: string -> bool)
    requires MinYear <= year.GetOr(clockYear + 1) < MaxYear
    ensures CreateYearPlan(year, language, filename, clockYear, accepts).Success?
    ensures var p := CreateYearPlan(year, language, filename, clockYear, accepts).value;
            var y := year.GetOr(clockYear + 1);
            && Decimal.ParseInt(p.title) == Some(y)
            && |p.monthNameAnchors| == 12
            && (forall i :: 0 <= i < 12 ==>
                  p.monthNameAnchors[i].x == CellOrigin(p.grid, i + 1, 1).x + p.grid.cellWidth / 2.0)
            && p.titleAnchor == TitleAnchor(p.grid)
            && p.cells == CalendarCells(p.grid, y)
  {
    Decimal.RoundTrip(year.GetOr(clockYear + 1));
  }

  /** Each drawn cell, the `i`-th of the year's grid, is the cell of a date
      of year `y`. */
  lemma YearCellsSound(g: Geometry, y: int, i: int)
    requires 0 <= i < DaysInYear(y)
    ensures exists e: Date :: e.year == y && ValidDate(e) && CalendarCells(g, y)[i] == CellOf(g, e)
  {
    var ds := CalendarFrom(y, 1);
    CalendarFromLength(y, 1);
    assert CalendarCells(g, y)[i] == CellOf(g, ds[i]);
  }

  /** No two cells of the year's grid share a (month, day) pair: each day
      of the month is drawn at most once per column. */
  lemma CellsDistinct(g: Geometry, y: int)
    ensures forall i, j :: 0 <= i < j < |CalendarCells(g, y)| ==>
              (CalendarCells(g, y)[i].month, CalendarCells(g, y)[i].day)
              != (CalendarCells(g, y)[j].month, CalendarCells(g, y)[j].day)
  {
    var ds := CalendarFrom(y, 1);
    var cs := CalendarCells(g, y);
    CalendarFromLength(y, 1);
    CalendarFromOrdered(y, 1);
    forall i, j | 0 <= i < j < |cs|
      ensures (cs[i].month, cs[i].day) != (cs[j].month, cs[j].day)
    {
      assert cs[i] == CellOf(g, ds[i]) && cs[j] == CellOf(g, ds[j]);
      assert DrawnBefore(ds[i], ds[j]);
    }
  }

  /** Each date of year `y` gets its cell in the grid. */
  lemma YearCellsComplete(g: Geometry, y: int, d: Date)
    requires d.year == y && ValidDate(d)
    ensures CellOf(g, d) in CalendarCells(g, y)
  {
    CalendarFromCovers(y, 1, d);
    var ds := CalendarFrom(y, 1);
    var i :| 0 <= i < |ds| && ds[i] == d;
    assert CalendarCells(g, y)[i] == CellOf(g, d);
  }

  /** Every drawn cell lies inside the page margins and below the header
      rows, and cells of different dates of one year never overlap. */
  lemma CellsInsideAndDisjoint(g: Geometry, d: Date, e: Date)
    requires g == PageGrid()
    requires ValidDate(d) && ValidDate(e) && d.year == e.year && d != e
    ensures var c, f := CellOf(g, d).origin, CellOf(g, e).origin;
            && g.margin <= c.x && c.x + g.cellWidth <= g.width - g.margin
            && g.margin <= c.y && c.y + g.cellHeight <= g.yStart
            && (|| c.x + g.cellWidth <= f.x || f.x + g.cellWidth <= c.x
                || c.y + g.cellHeight <= f.y || f.y + g.cellHeight <= c.y)
  {
    CellWithinMargins(g, d.month, d.day);
    CellsDisjoint(g, d.month, d.day, e.month, e.day);
  }
}
